=== FILE: README.md ===
# Blog posts: store handlers and list views

A Dafny model of the list logic of a small blogging application. Posts
("todos") live in an in-memory array on an Express server that answers
GET, POST, PUT and DELETE on `/todos`. The browser client fetches that list,
filters it by category, sorts it newest first, pages it nine at a time, and
updates its own copy after a star toggle or a delete.

The model is written in a functional style:

- a post is an immutable `Post` record;
- the store and every view are sequences;
- each server handler is a pure function from (store, request body) to
  (next store, status, JSON payload);
- each client reaction is a pure function from (view state, outcome of the
  HTTP call) to the next view state.

Modules:

- `Prelude`: `Option`, `Result`, and JavaScript's `filter`, `map` and `slice`, with their laws.
- `Posts`: the record, ASCII lower-casing, the case-insensitive category filter, removal and replacement by id.
- `Server`: the `/todos` handlers of `server/index.js`, and lemmas about single requests and request sequences.
- `Api`: `client/utils/api.ts`.
- `BlogPage`: `client/app/blog/page.tsx`, covering sort, pagination, navigation and local updates.
- `HomePage`: `client/app/page.tsx`, covering the first-three slice, the total count and local updates.
- `BlogList`: `client/components/BlogList.tsx`.
- `Consistency`: proves that a category list showing the filtered store still shows the filtered store after the server handles a PUT or DELETE and the list applies the reply.

Parameters stand in for things the model does not compute:

- The id generator's clock and random part is a `suffix` parameter. Every id is `"id-" + suffix`. Uniqueness is proved under the assumption that the supplied id is fresh.
- Each client call receives what `fetch` produced. That is either `Err(message)` for a thrown transport error, or the response's `ok` flag and decoded JSON.

Points where the model follows the code as written rather than a tidier CRUD contract:

- POST also requires `createAt`.
- DELETE without an id answers 400, not 404.
- PUT returns the last record whose id matched.
- The category filter compares only `category`. No "starred" pseudo-category exists in these files.

## Model

| member | source | states |
|---|---|---|
| Server.List | server/index.js:39-41 | GET answers 200 with the whole store and changes nothing |
| Server.NewId | server/index.js:12-15 | a generated id is "id-" followed by the generator's suffix |
| Server.Create | server/index.js:18-37 | a body missing any of todo, content, category, createAt, authorName (or with one empty) gets 400 "All fields are required" and the store is unchanged; otherwise exactly one record is appended at the end, holding the given fields, the generated id and isStar false, the earlier records are unchanged, and 201 "Todo added successfully" returns that record |
| Server.CreateKeepsUnique | server/index.js:25-35 | given a fresh id, POST keeps ids unique and adds exactly the new id to the id set |
| Server.FlipStar | server/index.js:53 | the copy differs from the record only in isStar, which is negated |
| Server.LastWithId | server/index.js:50-57 | the record `updatedTodo` ends up holding is absent exactly when no record has the id, and otherwise is the last record with that id |
| Server.Toggle | server/index.js:47-64 | PUT flips isStar on exactly the records with the requested id and leaves every other record, the length and the order alone; 200 "Todo updated" carries the flipped copy of the last record with that id; an absent or unknown id gives 404 "Todo not found" with the store unchanged |
| Server.ToggleKeepsIds | server/index.js:51-57 | PUT never changes the set of ids and preserves their uniqueness |
| Server.ToggleInvolution | server/index.js:51-57 | two PUTs with the same id restore the original store, and the second succeeds exactly when the first did |
| Server.ToggleReturnsRecord | server/index.js:50-63 | with unique ids the 200 payload is the flipped version of the one record with that id, stored at its position |
| Server.Delete | server/index.js:66-80 | a missing or empty id gives 400 "ID is required", an unknown id gives 404 "Todo not found", both leaving the store unchanged; otherwise every record with that id is removed, the ids become the old ids minus that one, and 200 lists the remaining records |
| Server.DeleteTwice | server/index.js:73-76 | repeating a successful DELETE with the same id answers 404 and changes nothing |
| Server.DeleteRemovesOne | server/index.js:73-78 | with unique ids, a successful DELETE shrinks the store by exactly one record and keeps the ids unique |
| Server.FailuresChangeNothing | server/index.js:18-80 | every request answers 200, 201, 400 or 404, and every 400 or 404 leaves the store unchanged |
| Server.HandleKeepsUnique | server/index.js:18-80 | if every POST gets a fresh id, every request preserves id uniqueness |
| Server.Lifecycle | server/index.js:18-80 | in an empty store, POST then PUT then DELETE of the new id shows one unstarred post, then that post starred, then an empty store |
| Posts.ByCategory | client/utils/api.ts:22-26 | with a falsy category the list is returned as fetched; otherwise every kept post is from the input and its lower-cased category equals the lower-cased query |
| Posts.ByCategoryExact | client/utils/api.ts:23-25 | with a category, each post whose lower-cased category matches is kept as often as it occurs in the input, and every other post is dropped (sound and complete) |
| Posts.ByCategoryConcat | client/utils/api.ts:23-25 | the category filter distributes over concatenation, so it keeps the fetched order |
| Posts.ByCategoryCaseInsensitive | client/components/BlogList.tsx:31 | queries that lower-case to the same string (e.g. "Health" and "health") select the same posts |
| Posts.RemoveById | client/components/BlogList.tsx:83 | after removal, the ids are the old ids minus the removed one, every post with another id stays, and nothing new appears |
| Posts.RemoveByIdLength | server/index.js:73-74 | removing an id leaves the length unchanged exactly when no post has that id, and in that case the list itself is unchanged |
| Posts.RemoveByIdUnique | server/index.js:73 | with unique ids, removing a present id removes exactly one post |
| Posts.RemoveByIdExact | client/app/blog/page.tsx:48 | each post with another id keeps its multiplicity and posts with the id disappear |
| Posts.RemoveByIdConcat | client/components/BlogList.tsx:83 | removal distributes over concatenation, so the surviving posts keep their relative order |
| Posts.RemoveByIdKeepsUnique | server/index.js:73-78 | removal preserves id uniqueness |
| Posts.ReplaceById | client/components/BlogList.tsx:61-63 | replace-by-id keeps the length, replaces exactly the posts whose id equals the new record's id, and leaves the others as they were |
| Posts.ReplaceByIdAbsent | client/app/blog/page.tsx:35-38 | replacing by an id that no shown post has changes nothing |
| Posts.Excerpt | client/app/blog/page.tsx:99 | the card preview is exactly the content followed by "..." when it has at most 100 characters, and otherwise its first 100 characters followed by "..."; never more than 103 characters |
| Api.FetchPosts | client/utils/api.ts:16-30 | a transport error keeps its message; a non-ok response yields "Failed to fetch posts"; an ok response yields exactly the category filter of the listing (the whole list for a falsy category), kept posts all from the listing and of that category |
| Api.FetchPostsExact | client/utils/api.ts:22-26 | a successful fetch with a category keeps exactly the listed posts of that category, with their multiplicities |
| Api.FetchPostsOrder | client/utils/api.ts:22-26 | a successful fetch keeps the listing's order: the posts kept from a listing a + b are those kept from a followed by those kept from b, so the result is a subsequence of the listing |
| Api.ToggleStar | client/utils/api.ts:32-46 | succeeds exactly on an ok response and then returns the reply body; a non-ok response yields "Failed to update post"; a transport error keeps its message |
| Api.DeletePost | client/utils/api.ts:48-62 | returns true exactly when the response is ok; a non-ok response yields "Failed to delete post"; a transport error keeps its message |
| Prelude.Slice | client/app/blog/page.tsx:57 | JavaScript `slice`: for 0 <= start <= end the result is the sub-list between the two indices clipped to the list's length, and it is never longer than the list |
| BlogPage.Insert | client/app/blog/page.tsx:17-20 | inserting into a newest-first list yields a newest-first list with one more element, the same multiset plus the new post |
| BlogPage.SortNewestFirst | client/app/blog/page.tsx:17-21 | the sorted list is a permutation of the fetched list in non-increasing createAt order |
| BlogPage.SortSorted | client/app/blog/page.tsx:17-20 | a list already newest first is returned unchanged, so sorting twice equals sorting once |
| BlogPage.TotalPages | client/app/blog/page.tsx:58 | totalPages is the least count of 9-post pages that holds all the posts, and it is 0 only for no posts |
| BlogPage.Page | client/app/blog/page.tsx:54-57 | page p (p >= 1) is the slice [(p-1)*9, p*9) of the posts clipped to the list, and never holds more than 9 posts |
| BlogPage.PagesArePrefix | client/app/blog/page.tsx:55-58 | pages 1..k laid end to end are the first 9k posts, or all of them when there are fewer |
| BlogPage.PagesPartition | client/app/blog/page.tsx:55-58 | pages 1..totalPages concatenate back to the full list, every page before the last has exactly 9 posts, the last is non-empty, and later pages are empty |
| BlogPage.Previous | client/app/blog/page.tsx:126 | Previous goes to p-1 when p > 1 and otherwise to 1, so it never drops below 1 |
| BlogPage.Next | client/app/blog/page.tsx:152-156 | Next goes to p+1 when p < totalPages and otherwise to totalPages, so it never exceeds totalPages |
| BlogPage.PreviousNextInverse | client/app/blog/page.tsx:126-156 | inside the page range, Previous undoes Next and Next undoes Previous |
| BlogPage.PageNumbers | client/app/blog/page.tsx:134 | there is one button per page, numbered in strictly increasing order, each between 1 and totalPages |
| BlogPage.PageNumbersExact | client/app/blog/page.tsx:134-135 | the page buttons are exactly 1..totalPages |
| BlogPage.ClickStaysInRange | client/app/blog/page.tsx:122-157 | controls render only when totalPages > 1; clicking any rendered button from page >= 1 keeps the page >= 1, and inside 1..totalPages except for Previous from a page well past the end |
| BlogPage.Loaded | client/app/blog/page.tsx:13-30 | a successful fetch stores a newest-first permutation of the posts; a failure records its message and keeps the posts |
| BlogPage.Toggled | client/app/blog/page.tsx:32-43 | a successful toggle replaces the posts whose id equals the reply's todo.id, leaves every other post in place and changes nothing else in the page state (page, error, loading); a failure changes nothing |
| BlogPage.Deleted | client/app/blog/page.tsx:45-52 | a successful delete only replaces the post list by its filter: posts with the id leave, every other post stays, nothing new appears, and currentPage, error and loading are unchanged; a failure changes nothing |
| BlogPage.DeleteKeepsOrder | client/app/blog/page.tsx:48 | the posts left after a delete are still newest first |
| HomePage.Loaded | client/app/page.tsx:13-24 | a successful load only sets the shown posts to the first min(3, n) fetched posts in fetch order, totalPosts to n and loading off, leaving error as it was; a failure records the message and changes neither list nor total |
| HomePage.ViewAllWhenHidden | client/app/page.tsx:71-138 | the link lives in the branch that renders shown posts (not loading, no error, a non-empty shown list) and needs totalPosts > 3; right after a load with no earlier error it shows exactly when some fetched post is not shown |
| HomePage.DeletingLastShownHidesViewAll | client/app/page.tsx:138 | deleting the only shown post empties the shown list and hides the "View All" link, whatever totalPosts still counts |
| HomePage.ToggledAsWritten | client/app/page.tsx:28-39 | the toggle handler as written keeps the shown list's length and the total, and a failure changes nothing |
| HomePage.ToggledAsWrittenIgnoresReply | client/app/page.tsx:30-35 | as written, a successful toggle leaves the home state exactly as it was |
| HomePage.ToggledAsWrittenMissesStar | client/app/page.tsx:30-35 | a concrete post the server stars stays unstarred on the home page as written, unlike in the corrected handler |
| HomePage.Toggled | client/app/page.tsx:31-35 | corrected toggle: exactly the shown posts with the reply's todo id are replaced, and nothing else in the home state changes; a failure changes nothing |
| HomePage.Deleted | client/app/page.tsx:41-49 | a successful delete only filters the shown list (no refill) and decrements totalPosts by exactly 1, leaving error and loading; a failure changes neither |
| HomePage.DeleteShownPost | client/app/page.tsx:44-45 | with unique ids, deleting a shown post shortens the shown list by exactly one |
| BlogList.Loaded | client/components/BlogList.tsx:20-43 | an ok fetch shows the category-filtered list (the whole list without a category); a non-ok response or transport error records the message and leaves the posts unchanged |
| BlogList.Toggled | client/components/BlogList.tsx:45-67 | an ok PUT only replaces the posts matching the reply's todo.id, with length, other posts, error and loading unchanged; a non-ok PUT or transport error leaves the state unchanged |
| BlogList.Deleted | client/components/BlogList.tsx:69-87 | an ok DELETE only filters the list: exactly the posts with the id leave, the rest stay, nothing new appears, error and loading unchanged; a non-ok DELETE or transport error leaves the state unchanged |
| Consistency.ToggleInStep | client/components/BlogList.tsx:59-63 | with unique store ids, a list showing the store filtered by category still shows the new store filtered by that category after the server's PUT and the list's update |
| Consistency.DeleteInStep | client/components/BlogList.tsx:79-83 | a list showing the store filtered by category still shows the new store filtered by that category after the server's DELETE and the list's update |

## Findings

| source | as written | input that shows it | evidently intended | confidence | as-written member | corrected member |
|---|---|---|---|---|---|---|
| client/app/page.tsx:30-33 | the toggle handler binds the whole `{ message, todo }` reply as `updatedPost` and compares each post's id with `updatedPost.id`, a property the reply does not have | one shown unstarred post "id-a"; the server answers 200 with that post starred; the home page keeps showing it unstarred | compare with and substitute `reply.todo`, as the other two views do | not executed | HomePage.ToggledAsWritten (HomePage.ToggledAsWrittenMissesStar) | HomePage.Toggled |

## Left out

- Express wiring, CORS, JSON parsing and the listening socket are left out because they are plumbing. The second `GET /todos` registration in server/index.js is also left out: it duplicates the first and never runs. Routing a request to its handler is modelled by `Server.Handle`, which only dispatches on the method; its properties are stated by Server.FailuresChangeNothing, Server.HandleKeepsUnique and the handler rows.
- The MongoDB variant (server/controllers/todoController.js, server/models/Todo.js, server/routes/todoRoutes.js) is a different contract and is not part of this model. Its database calls are not visible, and it differs from the in-memory store in several ways. It does not require `createAt`; the schema defaults `createdAt` instead. Its DELETE has no 400 for a missing id, and its reply carries only `{ message }`. Every operation can also answer 500 on a database error.
- The real id generator (`Date.now()` and `Math.random()`) is replaced by the `suffix` parameter. Whether two calls can collide is outside the model, so uniqueness is proved only for fresh ids.
- HTTP I/O, `async`/`await` ordering, React hooks and rendering are left out. Each call's outcome is a parameter and each hook update is a state function. Markup, links and styling are not modelled. Navbar.tsx, BlogForm.tsx and client/app/new/page.jsx are not part of this model.
- client/utils/api.ts requests `/api/todos` while server/index.js serves `/todos`. This URL mismatch is noted but not modelled. The consistency lemmas pair the server with BlogList, which requests `/todos`.
- Dates are plain integers, and date parsing and locale formatting are left out. The `createAt`/`createdAt` field mismatch between the sort key and the display (client/app/blog/page.tsx:19 and :103) is not modelled.
- Posts.Excerpt: counts Unicode scalar values, while JavaScript's `substring(0, 100)` counts UTF-16 code units; for content with characters outside the Basic Multilingual Plane (emoji, for example) the source cuts at a different place, which is not modelled.
- Posts.Lower lower-cases only ASCII `A`-`Z`. JavaScript's `toLowerCase` also maps non-ASCII letters, and that mapping is left out.
- Server.Create checks only that `createAt` is present. The client sends it as a non-empty ISO date string, which is always truthy, so any present timestamp passes.
- BlogPage.SortNewestFirst is proved to be a newest-first permutation. Its stability (ties keep fetch order) follows from how `Insert` is written but is not stated as a property. Comparator results on invalid dates (`NaN`) are left out.
- Loading flags are modelled, but the "Loading…", "No posts" and error screens they select are not.
- The disabled state of Previous on page 1 and of Next on the last page is not modelled separately: clicking either in that state leaves the page where it is anyway.

=== FILE: api.dfy ===
/** The client's HTTP helpers (client/utils/api.ts). The network is a
    parameter: each call receives what `fetch` produced, either a response
    (its `ok` flag and decoded JSON) or the message of the error `fetch` threw.
    Every failure leaves the helper as a thrown error with a message, modelled
    as `Err(message)`. */
module Api {
  import opened Prelude
  import opened Posts

  /** A response as the client sees it: the `ok` flag and the decoded JSON body. */
  datatype Http<T> = Http(ok: bool, json: T)

  /** The JSON body of a successful PUT: `{ message, todo }`. */
  datatype ToggleReply = ToggleReply(message: string, todo: Post)

  const FetchFailed := "Failed to fetch posts"
  const UpdateFailed := "Failed to update post"
  const DeleteFailed := "Failed to delete post"

  /** `fetchPosts(category)`: a transport error keeps its message, a non-ok
      response becomes "Failed to fetch posts", and otherwise the listed posts
      pass through the category filter. */
  function FetchPosts(reply: Result<Http<seq<Post>>>, category: Option<string>): (r: Result<seq<Post>>)
    ensures reply.Err? ==> r == Err(reply.message)
    ensures reply.Ok? && !reply.value.ok ==> r == Err(FetchFailed)
    ensures reply.Ok? && reply.value.ok ==> r == Ok(ByCategory(reply.value.json, category))
    ensures r.Ok? && !Truthy(category) ==> r.value == reply.value.json
    ensures r.Ok? && Truthy(category) ==>
      forall p :: p in r.value ==> p in reply.value.json && InCategory(p, category.value)
  {
    match reply
    case Err(m) => Err(m)
    case Ok(resp) =>
      if !resp.ok then Err(FetchFailed)
      else Ok(ByCategory(resp.json, category))
  }

  /** A successful fetch with a category is sound and complete: it keeps each
      listed post of that category as many times as it was listed and drops
      every other post. */
  lemma FetchPostsExact(posts: seq<Post>, category: string, p: Post)
    requires category != ""
    ensures FetchPosts(Ok(Http(true, posts)), Some(category)).Ok?
    ensures var kept := FetchPosts(Ok(Http(true, posts)), Some(category)).value;
      && (p in kept <==> p in posts && InCategory(p, category))
      && multiset(kept)[p] == if InCategory(p, category) then multiset(posts)[p] else 0
  {
    ByCategoryExact(posts, category, p);
  }

  /** A successful fetch keeps the listing's order: the posts kept from a
      listing `a + b` are those kept from `a` followed by those kept from `b`,
      so the result is a subsequence of the listing. */
  lemma FetchPostsOrder(a: seq<Post>, b: seq<Post>, category: Option<string>)
    ensures FetchPosts(Ok(Http(true, a + b)), category).value
         == FetchPosts(Ok(Http(true, a)), category).value + FetchPosts(Ok(Http(true, b)), category).value
  {
    ByCategoryConcat(a, b, category);
  }

  /** `toggleStar(id)`: the reply body on success, "Failed to update post" on a non-ok response. */
  function ToggleStar(reply: Result<Http<ToggleReply>>): (r: Result<ToggleReply>)
    ensures reply.Err? ==> r == Err(reply.message)
    ensures reply.Ok? ==> (r.Ok? <==> reply.value.ok)
    ensures reply.Ok? && !reply.value.ok ==> r == Err(UpdateFailed)
    ensures r.Ok? ==> r.value == reply.value.json
  {
    match reply
    case Err(m) => Err(m)
    case Ok(resp) => if !resp.ok then Err(UpdateFailed) else Ok(resp.json)
  }

  /** `deletePost(id)`: `true` exactly when the response is ok, otherwise an error. */
  function DeletePost<J>(reply: Result<Http<J>>): (r: Result<bool>)
    ensures r == Ok(true) <==> reply.Ok? && reply.value.ok
    ensures r.Ok? ==> r.value
    ensures reply.Ok? && !reply.value.ok ==> r == Err(DeleteFailed)
    ensures reply.Err? ==> r == Err(reply.message)
  {
    match reply
    case Err(m) => Err(m)
    case Ok(resp) => if !resp.ok then Err(DeleteFailed) else Ok(true)
  }
}

=== FILE: blog_list.dfy ===
/** The category list component (client/components/BlogList.tsx): it lists
    `/todos` filtered by an optional category and updates its own list after a
    star toggle or a delete. Its fetch behaves as `Api.FetchPosts`; its PUT and
    DELETE failures are only logged. */
module BlogList {
  import opened Prelude
  import opened Posts
  import Api

  datatype ListState = ListState(posts: seq<Post>, error: Option<string>, loading: bool)

  /** After the fetch: the posts of the category (all posts without one), or
      the error message with the list untouched. */
  function Loaded(s: ListState, category: Option<string>, reply: Result<Api.Http<seq<Post>>>): (r: ListState)
    ensures !r.loading
    ensures reply.Ok? && reply.value.ok ==> r.posts == ByCategory(reply.value.json, category)
                                            && r.error == s.error
    ensures reply.Ok? && !reply.value.ok ==> r.posts == s.posts && r.error == Some(Api.FetchFailed)
    ensures reply.Err? ==> r.posts == s.posts && r.error == Some(reply.message)
  {
    match Api.FetchPosts(reply, category)
    case Ok(filtered) => s.(posts := filtered, loading := false)
    case Err(m) => s.(error := Some(m), loading := false)
  }

  /** After a PUT: on an ok response the post matching the reply's `todo.id`
      is replaced by the returned record; any failure leaves the list as it was. */
  function Toggled(s: ListState, reply: Result<Api.Http<Api.ToggleReply>>): (r: ListState)
    ensures !(reply.Ok? && reply.value.ok) ==> r == s
    ensures |r.posts| == |s.posts| && r.error == s.error
    ensures reply.Ok? && reply.value.ok ==> r == s.(posts := ReplaceById(s.posts, reply.value.json.todo))
    ensures reply.Ok? && reply.value.ok ==>
      var t := reply.value.json.todo;
      forall i :: 0 <= i < |s.posts| ==>
        r.posts[i] == if s.posts[i].id == t.id then t else s.posts[i]
  {
    match reply
    case Ok(resp) => if resp.ok then s.(posts := ReplaceById(s.posts, resp.json.todo)) else s
    case Err(_) => s
  }

  /** After a DELETE: on an ok response exactly the posts with that id leave
      the list and the rest keep their order; any failure leaves the list as it was. */
  function Deleted<J>(s: ListState, id: string, reply: Result<Api.Http<J>>): (r: ListState)
    ensures !(reply.Ok? && reply.value.ok) ==> r == s
    ensures reply.Ok? && reply.value.ok ==>
      && r == s.(posts := RemoveById(s.posts, id))
      && Ids(r.posts) == Ids(s.posts) - {id}
      && (forall p :: p in s.posts && p.id != id ==> p in r.posts)
      && (forall p :: p in r.posts ==> p in s.posts)
    ensures r.error == s.error
  {
    match reply
    case Ok(resp) => if resp.ok then s.(posts := RemoveById(s.posts, id)) else s
    case Err(_) => s
  }
}

=== FILE: blog_page.dfy ===
/** The "All Blog Posts" page (client/app/blog/page.tsx): the fetched posts
    sorted newest first, shown nine to a page with Previous / number / Next
    controls, and the local list updates after a star toggle or a delete. */
module BlogPage {
  import opened Prelude
  import opened Posts
  import Api

  // ---------------------------------------------------------------------------
  // Newest-first sort
  // ---------------------------------------------------------------------------

  /** Non-increasing creation time. */
  predicate NewestFirst(s: seq<Post>)
  {
    forall i, j :: 0 <= i < j < |s| ==> s[i].createAt >= s[j].createAt
  }

  /** Put `p` in front of the first post that is not newer than it, so posts
      with equal timestamps keep their relative order. */
  function Insert(p: Post, s: seq<Post>): (r: seq<Post>)
    requires NewestFirst(s)
    ensures NewestFirst(r)
    ensures multiset(r) == multiset(s) + multiset{p}
    ensures |r| == |s| + 1
    ensures r[0] == p || (|s| > 0 && r[0] == s[0])
    decreases |s|
  {
    if |s| == 0 || p.createAt >= s[0].createAt then [p] + s
    else
      var rest := Insert(p, s[1..]);
      assert s == [s[0]] + s[1..];
      [s[0]] + rest
  }

  /** `[...data].sort((a, b) => new Date(b.createAt).getTime() - new Date(a.createAt).getTime())`,
      a stable sort, with timestamps taken as plain integers here: a
      permutation of the fetched posts in newest-first order. */
  function SortNewestFirst(s: seq<Post>): (r: seq<Post>)
    ensures NewestFirst(r)
    ensures multiset(r) == multiset(s)
    ensures |r| == |s|
    decreases |s|
  {
    if |s| == 0 then []
    else
      assert s == [s[0]] + s[1..];
      Insert(s[0], SortNewestFirst(s[1..]))
  }

  /** A list already in newest-first order comes back unchanged, so sorting is idempotent. */
  lemma {:induction false} SortSorted(s: seq<Post>)
    requires NewestFirst(s)
    ensures SortNewestFirst(s) == s
    decreases |s|
  {
    if |s| > 0 {
      SortSorted(s[1..]);
      assert s == [s[0]] + s[1..];
    }
  }

  // ---------------------------------------------------------------------------
  // Pagination
  // ---------------------------------------------------------------------------

  const PostsPerPage := 9

  /** `Math.ceil(n / 9)`. */
  function TotalPages(n: nat): (t: nat)
    ensures t * PostsPerPage >= n
    ensures t > 0 ==> (t - 1) * PostsPerPage < n
    ensures t == 0 <==> n == 0
  {
    (n + PostsPerPage - 1) / PostsPerPage
  }

  /** `posts.slice((page - 1) * 9, page * 9)`. */
  function Page(posts: seq<Post>, page: int): (r: seq<Post>)
    ensures |r| <= PostsPerPage
    ensures page >= 1 ==>
      var lo := if (page - 1) * PostsPerPage <= |posts| then (page - 1) * PostsPerPage else |posts|;
      var hi := if page * PostsPerPage <= |posts| then page * PostsPerPage else |posts|;
      r == posts[lo..hi]
  {
    var last := page * PostsPerPage;
    var first := last - PostsPerPage;
    Slice(posts, first, last)
  }

  /** Pages 1 to `k` laid end to end. */
  function Pages(posts: seq<Post>, k: nat): seq<Post>
  {
    if k == 0 then [] else Pages(posts, k - 1) + Page(posts, k)
  }

  /** The first `k` pages are exactly the first `9 * k` posts (or all of them). */
  lemma {:induction false} PagesArePrefix(posts: seq<Post>, k: nat)
    ensures Pages(posts, k) == posts[..if k * PostsPerPage <= |posts| then k * PostsPerPage else |posts|]
  {
    if k > 0 {
      PagesArePrefix(posts, k - 1);
      var lo := if (k - 1) * PostsPerPage <= |posts| then (k - 1) * PostsPerPage else |posts|;
      var hi := if k * PostsPerPage <= |posts| then k * PostsPerPage else |posts|;
      assert posts[..lo] + posts[lo..hi] == posts[..hi];
    }
  }

  /** Pages 1 to `TotalPages` concatenate back to the whole list; every page
      but the last is full, the last is not empty, and later pages are empty. */
  lemma PagesPartition(posts: seq<Post>)
    ensures Pages(posts, TotalPages(|posts|)) == posts
    ensures forall p :: 1 <= p < TotalPages(|posts|) ==> |Page(posts, p)| == PostsPerPage
    ensures TotalPages(|posts|) > 0 ==> |Page(posts, TotalPages(|posts|))| > 0
    ensures forall p :: p > TotalPages(|posts|) ==> Page(posts, p) == []
  {
    PagesArePrefix(posts, TotalPages(|posts|));
  }

  /** The Previous button: one page back, never below page 1. */
  function Previous(page: int): (r: int)
    ensures r >= 1
    ensures page > 1 ==> r == page - 1
    ensures page <= 1 ==> r == 1
  {
    if page > 1 then page - 1 else 1
  }

  /** The Next button: one page on, never past the last page. */
  function Next(page: int, totalPages: nat): (r: int)
    ensures r <= totalPages
    ensures page < totalPages ==> r == page + 1
    ensures page >= totalPages ==> r == totalPages
  {
    if page < totalPages then page + 1 else totalPages
  }

  /** Previous and Next undo each other inside the page range. */
  lemma PreviousNextInverse(page: int, totalPages: nat)
    ensures 1 <= page < totalPages ==> Previous(Next(page, totalPages)) == page
    ensures 1 < page <= totalPages ==> Next(Previous(page), totalPages) == page
  {
  }

  /** The controls are rendered only when there is more than one page. */
  predicate ShowControls(totalPages: nat)
  {
    totalPages > 1
  }

  /** `Array.from({ length: totalPages }, (_, i) => i + 1)`: one button per page. */
  function PageNumbers(totalPages: nat): (r: seq<int>)
    ensures |r| == totalPages
    ensures forall k :: k in r ==> 1 <= k <= totalPages
    ensures forall i, j :: 0 <= i < j < |r| ==> r[i] < r[j]
  {
    seq(totalPages, i requires 0 <= i < totalPages => i + 1)
  }

  /** The buttons are exactly the pages 1 to `totalPages`. */
  lemma PageNumbersExact(totalPages: nat)
    ensures forall k :: k in PageNumbers(totalPages) <==> 1 <= k <= totalPages
  {
    forall k | 1 <= k <= totalPages ensures k in PageNumbers(totalPages) {
      assert PageNumbers(totalPages)[k - 1] == k;
    }
  }

  // ---------------------------------------------------------------------------
  // Page state
  // ---------------------------------------------------------------------------

  datatype PageState = PageState(posts: seq<Post>, currentPage: int, error: Option<string>, loading: bool)

  /** A button the pagination bar can offer. */
  datatype Control = PreviousButton | NumberButton(n: int) | NextButton

  function TotalPagesOf(s: PageState): nat
  {
    TotalPages(|s.posts|)
  }

  /** Whether a button is on screen: the bar is shown only with more than one
      page, and it numbers the pages from 1 to `totalPages`. */
  predicate Rendered(s: PageState, c: Control)
  {
    ShowControls(TotalPagesOf(s)) && (c.NumberButton? ==> c.n in PageNumbers(TotalPagesOf(s)))
  }

  /** `paginate(...)` for each button. */
  function Click(s: PageState, c: Control): PageState
  {
    match c
    case PreviousButton => s.(currentPage := Previous(s.currentPage))
    case NumberButton(n) => s.(currentPage := n)
    case NextButton => s.(currentPage := Next(s.currentPage, TotalPagesOf(s)))
  }

  /** Clicking any rendered button keeps the page number at least 1 and lands
      inside `[1, totalPages]`, except Previous from a page already past the end. */
  lemma ClickStaysInRange(s: PageState, c: Control)
    requires s.currentPage >= 1
    requires Rendered(s, c)
    ensures Click(s, c).currentPage >= 1
    ensures !c.PreviousButton? || s.currentPage <= TotalPagesOf(s) + 1 ==>
      Click(s, c).currentPage <= TotalPagesOf(s)
  {
  }

  /** After the fetch: the posts sorted newest first, or the error message. */
  function Loaded(s: PageState, fetched: Result<seq<Post>>): (r: PageState)
    ensures !r.loading && r.currentPage == s.currentPage
    ensures fetched.Ok? ==> r.error == s.error && NewestFirst(r.posts)
                            && multiset(r.posts) == multiset(fetched.value)
    ensures fetched.Err? ==> r.posts == s.posts && r.error == Some(fetched.message)
  {
    match fetched
    case Ok(data) => s.(posts := SortNewestFirst(data), loading := false)
    case Err(m) => s.(error := Some(m), loading := false)
  }

  /** After a star toggle: the post whose id equals the reply's `todo.id` is
      replaced by that record; a failed call is only logged. */
  function Toggled(s: PageState, reply: Result<Api.ToggleReply>): (r: PageState)
    ensures reply.Err? ==> r == s
    ensures r.currentPage == s.currentPage && |r.posts| == |s.posts|
    ensures reply.Ok? ==> r == s.(posts := ReplaceById(s.posts, reply.value.todo))
    ensures reply.Ok? ==> forall i :: 0 <= i < |s.posts| ==>
      r.posts[i] == if s.posts[i].id == reply.value.todo.id then reply.value.todo else s.posts[i]
  {
    match reply
    case Ok(body) => s.(posts := ReplaceById(s.posts, body.todo))
    case Err(_) => s
  }

  /** After a delete: the posts with that id are gone, the rest keep their
      order, and the current page number does not move; a failed call is only logged. */
  function Deleted(s: PageState, id: string, result: Result<bool>): (r: PageState)
    ensures result.Err? ==> r == s
    ensures r.currentPage == s.currentPage
    ensures result.Ok? ==> r == s.(posts := RemoveById(s.posts, id))
    ensures result.Ok? ==> Ids(r.posts) == Ids(s.posts) - {id}
    ensures result.Ok? ==> forall p :: p in s.posts && p.id != id ==> p in r.posts
    ensures result.Ok? ==> forall p :: p in r.posts ==> p in s.posts
  {
    match result
    case Ok(_) => s.(posts := RemoveById(s.posts, id))
    case Err(_) => s
  }

  /** Deleting keeps the sorted order: what stays is still newest first. */
  lemma DeleteKeepsOrder(s: PageState, id: string, result: Result<bool>)
    requires NewestFirst(s.posts)
    ensures NewestFirst(Deleted(s, id, result).posts)
  {
    if result.Ok? {
      FilterKeepsNewestFirst(s.posts, IdIsNot(id));
    }
  }

  lemma {:induction false} FilterKeepsNewestFirst(s: seq<Post>, keep: Post -> bool)
    requires NewestFirst(s)
    ensures NewestFirst(Filter(s, keep))
    decreases |s|
  {
    if |s| > 0 {
      FilterKeepsNewestFirst(s[1..], keep);
      if keep(s[0]) {
        var rest := Filter(s[1..], keep);
        forall q | q in rest ensures s[0].createAt >= q.createAt {
          var j :| 0 <= j < |s[1..]| && s[1..][j] == q;
          assert s[j + 1] == q;
        }
        assert Filter(s, keep) == [s[0]] + rest;
        forall i, j | 0 <= i < j < |[s[0]] + rest|
          ensures ([s[0]] + rest)[i].createAt >= ([s[0]] + rest)[j].createAt
        {
          if i == 0 {
            assert ([s[0]] + rest)[j] == rest[j - 1];
            assert rest[j - 1] in rest;
          }
        }
      }
    }
  }
}

=== FILE: consistency.dfy ===
/** How the category list stays in step with the in-memory store: if the list
    shows the store filtered by its category, then after the server handles a
    PUT or DELETE and the list applies the server's answer, the list again shows
    the (new) store filtered by the same category. */
module Consistency {
  import opened Prelude
  import opened Posts
  import Api
  import Server
  import BlogList

  /** What the client receives for a server response: `ok` for a 2xx status,
      and, for a PUT, the `{ message, todo }` body of a 200 answer. An error
      body is never read by the client; `unread` stands in for it. */
  function ToggleWire(r: Server.Response, unread: Api.ToggleReply): Result<Api.Http<Api.ToggleReply>>
  {
    if r.payload.Updated? then Ok(Api.Http(200 <= r.status < 300, Api.ToggleReply(r.payload.message, r.payload.todo)))
    else Ok(Api.Http(200 <= r.status < 300, unread))
  }

  function DeleteWire(r: Server.Response): Result<Api.Http<Server.Payload>>
  {
    Ok(Api.Http(200 <= r.status < 300, r.payload))
  }

  /** Two records of a list with unique ids that share an id are the same record. */
  lemma SameIdSameRecord(s: seq<Post>, p: Post, q: Post)
    requires UniqueIds(s)
    requires p in s && q in s && p.id == q.id
    ensures p == q
  {
    var i :| 0 <= i < |s| && s[i] == p;
    var j :| 0 <= j < |s| && s[j] == q;
    assert i == j;
  }

  /** On a sub-list of the store, putting the server's flipped record in place
      of the one with its id is the same as flipping that id's star. */
  lemma ReplaceIsFlip(store: seq<Post>, shown: seq<Post>, last: Post)
    requires UniqueIds(store)
    requires last in store
    requires forall p :: p in shown ==> p in store
    ensures ReplaceById(shown, Server.FlipStar(last)) == Map(shown, Server.FlipIfId(last.id))
  {
    var a := ReplaceById(shown, Server.FlipStar(last));
    var b := Map(shown, Server.FlipIfId(last.id));
    forall i | 0 <= i < |shown| ensures a[i] == b[i] {
      assert shown[i] in shown;
      if shown[i].id == last.id {
        SameIdSameRecord(store, shown[i], last);
      }
    }
  }

  /** The star toggle keeps the category list and the store in step. */
  lemma ToggleInStep(store: seq<Post>, category: Option<string>, id: string, unread: Api.ToggleReply)
    requires UniqueIds(store)
    ensures var h := Server.Toggle(store, Some(id));
            var before := BlogList.ListState(ByCategory(store, category), None, false);
            BlogList.Toggled(before, ToggleWire(h.response, unread)).posts == ByCategory(h.store, category)
  {
    var h := Server.Toggle(store, Some(id));
    var shown := ByCategory(store, category);
    var before := BlogList.ListState(shown, None, false);
    var after := BlogList.Toggled(before, ToggleWire(h.response, unread));
    if h.response != Server.NotFound {
      var last := Server.LastWithId(store, id).value;
      var flip := Server.FlipIfId(id);
      assert h.store == Map(store, flip);
      assert h.response.payload.todo == Server.FlipStar(last);
      assert after.posts == ReplaceById(shown, Server.FlipStar(last));
      ReplaceIsFlip(store, shown, last);
      if Truthy(category) {
        FilterMapCommute(store, flip, CategoryIs(category.value));
      }
    }
  }

  /** A delete keeps the category list and the store in step. */
  lemma DeleteInStep(store: seq<Post>, category: Option<string>, id: Option<string>)
    ensures var h := Server.Delete(store, id);
            var before := BlogList.ListState(ByCategory(store, category), None, false);
            Truthy(id) ==>
              BlogList.Deleted(before, id.value, DeleteWire(h.response)).posts == ByCategory(h.store, category)
  {
    var h := Server.Delete(store, id);
    if Truthy(id) && h.response.status == 200 && Truthy(category) {
      FilterCommute(store, IdIsNot(id.value), CategoryIs(category.value));
    }
  }
}

=== FILE: home_page.dfy ===
/** The home page (client/app/page.tsx): the first three fetched posts, the
    total count behind the "View All Posts" link, and the local updates after
    a star toggle or a delete. */
module HomePage {
  import opened Prelude
  import opened Posts
  import Api

  const LatestCount := 3

  datatype HomeState = HomeState(latest: seq<Post>, totalPosts: int, error: Option<string>, loading: bool)

  /** After the fetch: the first three posts in fetch order and the number of
      posts fetched, or the error message with the shown list untouched. */
  function Loaded(s: HomeState, fetched: Result<seq<Post>>): (r: HomeState)
    ensures !r.loading
    ensures fetched.Ok? ==>
      var n := |fetched.value|;
      && |r.latest| == (if n < LatestCount then n else LatestCount)
      && r.latest <= fetched.value
      && r.totalPosts == n
      && r.error == s.error
    ensures fetched.Ok? ==>
      r == s.(latest := fetched.value[..|r.latest|], totalPosts := |fetched.value|, loading := false)
    ensures fetched.Err? ==>
      r.latest == s.latest && r.totalPosts == s.totalPosts && r.error == Some(fetched.message)
  {
    match fetched
    case Ok(posts) => s.(latest := Slice(posts, 0, LatestCount), totalPosts := |posts|, loading := false)
    case Err(m) => s.(error := Some(m), loading := false)
  }

  /** The "View All Posts" link: it sits in the branch that renders the shown
      posts, so it appears only when loading is over, no (truthy) error was recorded and
      at least one post is shown, and then exactly when more than three posts exist. */
  predicate ShowViewAll(s: HomeState)
  {
    !s.loading && !Truthy(s.error) && |s.latest| > 0 && s.totalPosts > LatestCount
  }

  /** Right after a successful load with no earlier error, the link is shown
      exactly when some fetched post is not among the three shown. */
  lemma ViewAllWhenHidden(s: HomeState, posts: seq<Post>)
    ensures s.error.None? ==>
      (ShowViewAll(Loaded(s, Ok(posts))) <==> |Loaded(s, Ok(posts)).latest| < |posts|)
  {
  }

  /** Deleting the only shown post empties the shown list, and with it the
      link disappears, however many posts the total still counts. */
  lemma DeletingLastShownHidesViewAll(s: HomeState)
    requires |s.latest| == 1
    ensures var r := Deleted(s, s.latest[0].id, Ok(true));
            r.latest == [] && !ShowViewAll(r)
  {
  }

  /** The property `updatedPost.id` the toggle handler compares against: the
      handler binds the whole `{ message, todo }` reply, which has no `id`. */
  function ReplyIdProperty(reply: Api.ToggleReply): Option<string>
  {
    None
  }

  /** The toggle handler as written: each shown post is compared with the
      reply's own `id` property, which is absent, so no post is ever replaced.
      (Were it ever equal, the source would put the whole reply object in the
      list; the branch is dead, so the model puts `todo` there.) */
  function ToggledAsWritten(s: HomeState, reply: Result<Api.ToggleReply>): (r: HomeState)
    ensures |r.latest| == |s.latest| && r.totalPosts == s.totalPosts
    ensures reply.Err? ==> r == s
  {
    match reply
    case Ok(body) =>
      s.(latest := Map(s.latest, (p: Post) => if Some(p.id) == ReplyIdProperty(body) then body.todo else p))
    case Err(_) => s
  }

  /** The discrepancy: even when the server flips the star, the home page keeps
      showing every post exactly as before. */
  lemma ToggledAsWrittenIgnoresReply(s: HomeState, reply: Api.ToggleReply)
    ensures ToggledAsWritten(s, Ok(reply)) == s
  {
    var r := ToggledAsWritten(s, Ok(reply));
    assert r.latest == s.latest;
  }

  /** A concrete case: one shown post, unstarred; the server answers with it starred;
      the as-written handler still shows it unstarred. */
  lemma ToggledAsWrittenMissesStar()
    ensures var p := Post("id-a", "A", "text", "health", "X", 1, false);
            var reply := Api.ToggleReply("Todo updated", p.(isStar := true));
            var s := HomeState([p], 1, None, false);
            && ToggledAsWritten(s, Ok(reply)).latest == [p]
            && Toggled(s, Ok(reply)).latest == [reply.todo]
            && ToggledAsWritten(s, Ok(reply)) != Toggled(s, Ok(reply))
  {
    var p := Post("id-a", "A", "text", "health", "X", 1, false);
    var reply := Api.ToggleReply("Todo updated", p.(isStar := true));
    var s := HomeState([p], 1, None, false);
    ToggledAsWrittenIgnoresReply(s, reply);
    assert Toggled(s, Ok(reply)).latest[0] == reply.todo;
  }

  /** The toggle handler as evidently intended: compare against the reply's
      `todo.id` and put the returned record in place of the shown one. */
  function Toggled(s: HomeState, reply: Result<Api.ToggleReply>): (r: HomeState)
    ensures reply.Err? ==> r == s
    ensures |r.latest| == |s.latest| && r.totalPosts == s.totalPosts
    ensures reply.Ok? ==> r == s.(latest := ReplaceById(s.latest, reply.value.todo))
    ensures reply.Ok? ==> forall i :: 0 <= i < |s.latest| ==>
      r.latest[i] == if s.latest[i].id == reply.value.todo.id then reply.value.todo else s.latest[i]
  {
    match reply
    case Ok(body) => s.(latest := ReplaceById(s.latest, body.todo))
    case Err(_) => s
  }

  /** After a delete: the post leaves the shown list (which is not refilled)
      and the total drops by exactly one; a failed call changes nothing. */
  function Deleted(s: HomeState, id: string, result: Result<bool>): (r: HomeState)
    ensures result.Err? ==> r == s
    ensures result.Ok? ==>
      && r == s.(latest := RemoveById(s.latest, id), totalPosts := s.totalPosts - 1)
      && r.totalPosts == s.totalPosts - 1
      && Ids(r.latest) == Ids(s.latest) - {id}
      && |r.latest| <= |s.latest|
      && forall p :: p in r.latest ==> p in s.latest
  {
    match result
    case Ok(_) => s.(latest := RemoveById(s.latest, id), totalPosts := s.totalPosts - 1)
    case Err(_) => s
  }

  /** Deleting a shown post from a list with unique ids shortens it by exactly one. */
  lemma DeleteShownPost(s: HomeState, id: string)
    requires UniqueIds(s.latest)
    requires id in Ids(s.latest)
    ensures |Deleted(s, id, Ok(true)).latest| == |s.latest| - 1
  {
    RemoveByIdUnique(s.latest, id);
  }
}

=== FILE: posts.dfy ===
/** The post record shared by the server and the client views, and the list
    operations on it that several files repeat: the case-insensitive category
    filter, removal by id and replacement by id. */
module Posts {
  import opened Prelude

  /** One stored post (a "todo" record). The creation timestamp is an integer. */
  datatype Post = Post(
    id: string,
    todo: string,
    content: string,
    category: string,
    authorName: string,
    createAt: int,
    isStar: bool)

  // ---------------------------------------------------------------------------
  // Lower-casing (ASCII letters only)
  // ---------------------------------------------------------------------------

  predicate IsUpper(c: char)
  {
    'A' <= c <= 'Z'
  }

  /** `toLowerCase` on one character, restricted to the ASCII letters. */
  function LowerChar(c: char): (r: char)
    ensures !IsUpper(r)
    ensures !IsUpper(c) ==> r == c
    ensures IsUpper(c) ==> 'a' <= r <= 'z' && r as int - c as int == 32
  {
    if IsUpper(c) then (c as int + 32) as char else c
  }

  /** `s.toLowerCase()`: same length, every character lowered, no upper-case letter left. */
  function Lower(s: string): (r: string)
    ensures |r| == |s|
    ensures forall i :: 0 <= i < |s| ==> r[i] == LowerChar(s[i])
    ensures forall i :: 0 <= i < |r| ==> !IsUpper(r[i])
  {
    seq(|s|, i requires 0 <= i < |s| => LowerChar(s[i]))
  }

  // ---------------------------------------------------------------------------
  // Category filter
  // ---------------------------------------------------------------------------

  /** `post.category.toLowerCase() === category.toLowerCase()`. */
  predicate InCategory(p: Post, query: string)
  {
    Lower(p.category) == Lower(query)
  }

  function CategoryIs(query: string): Post -> bool
  {
    (p: Post) => InCategory(p, query)
  }

  /** The filter on fetched posts: a falsy category (absent, null or "")
      returns the list as fetched, otherwise only the posts of that category. */
  function ByCategory(posts: seq<Post>, category: Option<string>): (r: seq<Post>)
    ensures !Truthy(category) ==> r == posts
    ensures Truthy(category) ==> forall p :: p in r ==> InCategory(p, category.value)
    ensures forall p :: p in r ==> p in posts
    ensures multiset(r) <= multiset(posts)
  {
    if Truthy(category) then Filter(posts, CategoryIs(category.value)) else posts
  }

  /** Sound and complete: with a category given, a post occurs in the result
      exactly as often as in the input when its category matches, and not at all otherwise. */
  lemma ByCategoryExact(posts: seq<Post>, query: string, p: Post)
    requires query != ""
    ensures multiset(ByCategory(posts, Some(query)))[p]
         == if InCategory(p, query) then multiset(posts)[p] else 0
    ensures p in ByCategory(posts, Some(query)) <==> p in posts && InCategory(p, query)
  {
    FilterCount(posts, CategoryIs(query), p);
    assert p in ByCategory(posts, Some(query)) <==> multiset(ByCategory(posts, Some(query)))[p] > 0;
  }

  /** The filter keeps the original order: it distributes over concatenation. */
  lemma ByCategoryConcat(a: seq<Post>, b: seq<Post>, category: Option<string>)
    ensures ByCategory(a + b, category) == ByCategory(a, category) + ByCategory(b, category)
  {
    if Truthy(category) {
      FilterConcat(a, b, CategoryIs(category.value));
    }
  }

  /** Case-insensitive in the query: "Health" and "health" select the same posts. */
  lemma {:induction false} ByCategoryCaseInsensitive(posts: seq<Post>, q1: string, q2: string)
    requires Lower(q1) == Lower(q2)
    ensures ByCategory(posts, Some(q1)) == ByCategory(posts, Some(q2))
    decreases |posts|
  {
    if |posts| > 0 && q1 != "" && q2 != "" {
      ByCategoryCaseInsensitive(posts[1..], q1, q2);
    }
  }

  // ---------------------------------------------------------------------------
  // Ids, removal and replacement
  // ---------------------------------------------------------------------------

  function Ids(s: seq<Post>): set<string>
  {
    set p | p in s :: p.id
  }

  /** No two records share an id. */
  predicate UniqueIds(s: seq<Post>)
  {
    forall i, j :: 0 <= i < j < |s| ==> s[i].id != s[j].id
  }

  function IdIsNot(id: string): Post -> bool
  {
    (p: Post) => p.id != id
  }

  /** `posts.filter((post) => post.id !== id)`. */
  function RemoveById(s: seq<Post>, id: string): (r: seq<Post>)
    ensures Ids(r) == Ids(s) - {id}
    ensures forall p :: p in s && p.id != id ==> p in r
    ensures forall p :: p in r ==> p in s
  {
    var r := Filter(s, IdIsNot(id));
    forall p | p in s && p.id != id ensures p in r {
      FilterCount(s, IdIsNot(id), p);
      assert multiset(r)[p] > 0;
    }
    forall p | p in r ensures p in s && p.id != id {
      assert multiset(r)[p] > 0;
    }
    r
  }

  /** Removal changes the length exactly when the id is present. */
  lemma RemoveByIdLength(s: seq<Post>, id: string)
    ensures |RemoveById(s, id)| == |s| <==> id !in Ids(s)
    ensures id !in Ids(s) ==> RemoveById(s, id) == s
  {
    FilterLength(s, IdIsNot(id));
    if id in Ids(s) {
      var p :| p in s && p.id == id;
      var i :| 0 <= i < |s| && s[i] == p;
      assert !IdIsNot(id)(s[i]);
    }
  }

  /** With unique ids, removing a present id removes exactly one record. */
  lemma {:induction false} RemoveByIdUnique(s: seq<Post>, id: string)
    requires UniqueIds(s)
    requires id in Ids(s)
    ensures |RemoveById(s, id)| == |s| - 1
    decreases |s|
  {
    assert s == [s[0]] + s[1..];
    if s[0].id == id {
      assert id !in Ids(s[1..]) by {
        forall p | p in s[1..] ensures p.id != id {
          var j :| 0 <= j < |s[1..]| && s[1..][j] == p;
          assert s[j + 1] == p;
        }
      }
      RemoveByIdLength(s[1..], id);
    } else {
      assert id in Ids(s[1..]) by {
        var p :| p in s && p.id == id;
        assert p != s[0];
        assert p in s[1..];
      }
      RemoveByIdUnique(s[1..], id);
    }
  }

  /** Removal keeps every other post as many times as it occurred and removes nothing else. */
  lemma RemoveByIdExact(s: seq<Post>, id: string, p: Post)
    ensures multiset(RemoveById(s, id))[p] == if p.id == id then 0 else multiset(s)[p]
  {
    FilterCount(s, IdIsNot(id), p);
  }

  /** Removal keeps the survivors' relative order: it distributes over concatenation. */
  lemma RemoveByIdConcat(a: seq<Post>, b: seq<Post>, id: string)
    ensures RemoveById(a + b, id) == RemoveById(a, id) + RemoveById(b, id)
  {
    FilterConcat(a, b, IdIsNot(id));
  }

  /** A sub-list of a list with unique ids has unique ids. */
  lemma RemoveByIdKeepsUnique(s: seq<Post>, id: string)
    requires UniqueIds(s)
    ensures UniqueIds(RemoveById(s, id))
  {
    UniqueIdsSubsequence(s, IdIsNot(id));
  }

  lemma {:induction false} UniqueIdsSubsequence(s: seq<Post>, keep: Post -> bool)
    requires UniqueIds(s)
    ensures UniqueIds(Filter(s, keep))
    decreases |s|
  {
    if |s| > 0 {
      UniqueIdsSubsequence(s[1..], keep);
      if keep(s[0]) {
        var r := Filter(s, keep);
        assert r == [s[0]] + Filter(s[1..], keep);
        forall j | 0 < j < |r| ensures r[0].id != r[j].id {
          assert r[j] in Filter(s[1..], keep);
          FilterCount(s[1..], keep, r[j]);
          assert r[j] in s[1..];
        }
      }
    }
  }

  function ReplaceWith(updated: Post): Post -> Post
  {
    (p: Post) => if p.id == updated.id then updated else p
  }

  /** `posts.map((post) => post.id === updated.id ? updated : post)`: same length,
      posts with another id untouched, the ones with `updated.id` replaced. */
  function ReplaceById(s: seq<Post>, updated: Post): (r: seq<Post>)
    ensures |r| == |s|
    ensures forall i :: 0 <= i < |s| && s[i].id != updated.id ==> r[i] == s[i]
    ensures forall i :: 0 <= i < |s| && s[i].id == updated.id ==> r[i] == updated
  {
    Map(s, ReplaceWith(updated))
  }

  /** Replacing by an id that is not in the list changes nothing. */
  lemma ReplaceByIdAbsent(s: seq<Post>, updated: Post)
    requires updated.id !in Ids(s)
    ensures ReplaceById(s, updated) == s
  {
    var r := ReplaceById(s, updated);
    forall i | 0 <= i < |s| ensures r[i] == s[i] {
      assert s[i] in s;
    }
  }

  // ---------------------------------------------------------------------------
  // Excerpt
  // ---------------------------------------------------------------------------

  /** The preview a list card shows: `content.substring(0, 100)` followed by "...". */
  function Excerpt(content: string): (r: string)
    ensures |r| <= 103
    ensures |content| <= 100 ==> r == content + "..."
    ensures |content| > 100 ==> r == content[..100] + "..."
    ensures |r| >= 3 && r[|r| - 3..] == "..."
  {
    (if |content| <= 100 then content else content[..100]) + "..."
  }
}

=== FILE: prelude.dfy ===
/** Small building blocks shared by the whole model: the optional and
    failure-carrying wrappers used for JavaScript's `undefined`/`null` and
    thrown errors, and the three array methods the application leans on
    (`filter`, `map` and `slice`), with the facts about them that the
    server handlers and the views rely on. */
module Prelude {

  /** A value that may be absent (`undefined` or `null` in the source). */
  datatype Option<T> = None | Some(value: T)

  /** The outcome of a call that may throw: `Err` carries the error's message. */
  datatype Result<T> = Ok(value: T) | Err(message: string)

  /** JavaScript truthiness of an optional string: absent and `""` are falsy. */
  predicate Truthy(o: Option<string>)
  {
    o.Some? && o.value != ""
  }

  // ---------------------------------------------------------------------------
  // Array.prototype.filter
  // ---------------------------------------------------------------------------

  /** `s.filter(keep)`: the elements of `s` that satisfy `keep`, in their original order. */
  function Filter<T>(s: seq<T>, keep: T -> bool): (r: seq<T>)
    ensures |r| <= |s|
    ensures forall x :: x in r ==> x in s && keep(x)
    ensures multiset(r) <= multiset(s)
    decreases |s|
  {
    if |s| == 0 then []
    else
      assert s == [s[0]] + s[1..];
      if keep(s[0]) then [s[0]] + Filter(s[1..], keep) else Filter(s[1..], keep)
  }

  /** The filter keeps every copy of a satisfying element and no copy of any other:
      together with `FilterConcat` this pins the result down completely. */
  lemma {:induction false} FilterCount<T>(s: seq<T>, keep: T -> bool, x: T)
    ensures multiset(Filter(s, keep))[x] == if keep(x) then multiset(s)[x] else 0
    decreases |s|
  {
    if |s| > 0 {
      assert s == [s[0]] + s[1..];
      FilterCount(s[1..], keep, x);
    }
  }

  /** Filtering distributes over concatenation, which is what "keeps the order" means. */
  lemma {:induction false} FilterConcat<T>(a: seq<T>, b: seq<T>, keep: T -> bool)
    ensures Filter(a + b, keep) == Filter(a, keep) + Filter(b, keep)
    decreases |a|
  {
    if |a| == 0 {
      assert a + b == b;
    } else {
      assert (a + b)[1..] == a[1..] + b;
      FilterConcat(a[1..], b, keep);
    }
  }

  /** The filter changes nothing exactly when every element satisfies `keep`,
      and otherwise the result is strictly shorter. */
  lemma {:induction false} FilterLength<T>(s: seq<T>, keep: T -> bool)
    ensures |Filter(s, keep)| == |s| <==> forall i :: 0 <= i < |s| ==> keep(s[i])
    ensures |Filter(s, keep)| == |s| ==> Filter(s, keep) == s
    decreases |s|
  {
    if |s| > 0 {
      FilterLength(s[1..], keep);
      if keep(s[0]) {
        if forall i :: 0 <= i < |s| - 1 ==> keep(s[1..][i]) {
          assert forall i :: 0 <= i < |s| ==> keep(s[i]) by {
            forall i | 0 < i < |s| ensures keep(s[i]) {
              assert s[i] == s[1..][i - 1];
            }
          }
        }
        assert s == [s[0]] + s[1..];
      }
    }
  }

  /** Two filters may be applied in either order. */
  lemma {:induction false} FilterCommute<T>(s: seq<T>, p: T -> bool, q: T -> bool)
    ensures Filter(Filter(s, p), q) == Filter(Filter(s, q), p)
    decreases |s|
  {
    if |s| > 0 {
      FilterCommute(s[1..], p, q);
    }
  }

  // ---------------------------------------------------------------------------
  // Array.prototype.map
  // ---------------------------------------------------------------------------

  /** `s.map(f)`: `f` applied to each element, positions kept. */
  function Map<T, U>(s: seq<T>, f: T -> U): (r: seq<U>)
    ensures |r| == |s|
    ensures forall i :: 0 <= i < |s| ==> r[i] == f(s[i])
    decreases |s|
  {
    if |s| == 0 then [] else [f(s[0])] + Map(s[1..], f)
  }

  /** Mapping a function that leaves `keep` unchanged commutes with filtering by `keep`. */
  lemma {:induction false} FilterMapCommute<T>(s: seq<T>, f: T -> T, keep: T -> bool)
    requires forall x :: keep(f(x)) == keep(x)
    ensures Filter(Map(s, f), keep) == Map(Filter(s, keep), f)
    decreases |s|
  {
    if |s| > 0 {
      assert Map(s, f)[1..] == Map(s[1..], f);
      FilterMapCommute(s[1..], f, keep);
    }
  }

  // ---------------------------------------------------------------------------
  // Array.prototype.slice
  // ---------------------------------------------------------------------------

  /** How `slice` reads one of its arguments against a length `n`: a negative
      index counts back from the end, and the result is clamped to `[0, n]`. */
  function SliceIndex(i: int, n: nat): (k: nat)
    ensures k <= n
    ensures 0 <= i <= n ==> k == i
    ensures i > n ==> k == n
  {
    if i < 0 then (if n + i < 0 then 0 else n + i)
    else if i > n then n
    else i
  }

  /** `s.slice(start, end)` with JavaScript's treatment of out-of-range and negative indices. */
  function Slice<T>(s: seq<T>, start: int, end: int): (r: seq<T>)
    ensures |r| <= |s|
    ensures 0 <= start <= end ==>
      (var a := if start <= |s| then start else |s|;
       var b := if end <= |s| then end else |s|;
       r == s[a..b])
  {
    var a := SliceIndex(start, |s|);
    var b := SliceIndex(end, |s|);
    if a < b then s[a..b] else []
  }
}

=== FILE: server.dfy ===
/** The in-memory post store behind `/todos` (server/index.js). Each handler is a
    pure function from the current store and the request body to the next store
    and the HTTP response; the store is the process-wide `todos` array. */
module Server {
  import opened Prelude
  import opened Posts

  /** The body of a POST. An absent field is `None`; the timestamp arrives as a
      non-empty ISO string, so any present timestamp is truthy. */
  datatype CreateBody = CreateBody(
    todo: Option<string>,
    content: Option<string>,
    category: Option<string>,
    createAt: Option<int>,
    authorName: Option<string>)

  /** The JSON a handler sends back. */
  datatype Payload =
    | Listing(data: seq<Post>)
    | Created(message: string, todo: Post)
    | Updated(message: string, todo: Post)
    | Deleted(message: string, todos: seq<Post>)
    | Error(error: string)

  datatype Response = Response(status: int, payload: Payload)

  /** The store after a request, and the response to it. */
  datatype Handled = Handled(store: seq<Post>, response: Response)

  /** One request to `/todos`; PUT and DELETE carry `{ id }`. */
  datatype Request =
    | GetAll
    | PostTodo(body: CreateBody)
    | PutTodo(id: Option<string>)
    | DeleteTodo(id: Option<string>)

  const NotFound := Response(404, Error("Todo not found"))

  // ---------------------------------------------------------------------------
  // GET
  // ---------------------------------------------------------------------------

  /** GET always answers 200 with the whole store, in insertion order. */
  function List(store: seq<Post>): (h: Handled)
    ensures h.store == store
    ensures h.response.status == 200 && h.response.payload.Listing?
    ensures h.response.payload.data == store
  {
    Handled(store, Response(200, Listing(store)))
  }

  // ---------------------------------------------------------------------------
  // POST
  // ---------------------------------------------------------------------------

  /** The id the server generates: "id-" followed by a string that the clock and
      the random source supply, here the parameter `suffix`. */
  function NewId(suffix: string): (id: string)
    ensures |id| == 3 + |suffix|
    ensures id[..3] == "id-" && id[3..] == suffix
  {
    "id-" + suffix
  }

  /** Every required field present and truthy. */
  predicate Complete(b: CreateBody)
  {
    && Truthy(b.todo)
    && Truthy(b.content)
    && Truthy(b.category)
    && b.createAt.Some?
    && Truthy(b.authorName)
  }

  /** POST: reject an incomplete body with 400 and leave the store alone;
      otherwise append one record, unstarred, and answer 201 with it. */
  function Create(store: seq<Post>, body: CreateBody, suffix: string): (h: Handled)
    ensures !Complete(body) ==>
      h.store == store && h.response == Response(400, Error("All fields are required"))
    ensures Complete(body) ==>
      && h.response.status == 201
      && h.response.payload.Created?
      && h.response.payload.message == "Todo added successfully"
      && |h.store| == |store| + 1
      && h.store[..|store|] == store
      && h.store[|store|] == h.response.payload.todo
    ensures Complete(body) ==>
      var t := h.response.payload.todo;
      && t.id == NewId(suffix)
      && t.todo == body.todo.value
      && t.content == body.content.value
      && t.category == body.category.value
      && t.createAt == body.createAt.value
      && t.authorName == body.authorName.value
      && !t.isStar
  {
    if !Complete(body) then
      Handled(store, Response(400, Error("All fields are required")))
    else
      var t := Post(NewId(suffix), body.todo.value, body.content.value, body.category.value,
                    body.authorName.value, body.createAt.value, false);
      Handled(store + [t], Response(201, Created("Todo added successfully", t)))
  }

  /** With a fresh id, a successful POST keeps the ids unique. */
  lemma CreateKeepsUnique(store: seq<Post>, body: CreateBody, suffix: string)
    requires UniqueIds(store)
    requires NewId(suffix) !in Ids(store)
    ensures UniqueIds(Create(store, body, suffix).store)
    ensures Ids(Create(store, body, suffix).store)
         == if Complete(body) then Ids(store) + {NewId(suffix)} else Ids(store)
  {
    var s' := Create(store, body, suffix).store;
    if Complete(body) {
      forall i, j | 0 <= i < j < |s'| ensures s'[i].id != s'[j].id {
        if j == |store| {
          assert s'[i] == store[i];
          assert store[i] in store;
        } else {
          assert s'[i] == store[i] && s'[j] == store[j];
        }
      }
      assert s' == store + [s'[|store|]];
    }
  }

  // ---------------------------------------------------------------------------
  // PUT
  // ---------------------------------------------------------------------------

  /** `{ ...t, isStar: !t.isStar }`. */
  function FlipStar(p: Post): (q: Post)
    ensures q.isStar != p.isStar
    ensures q.(isStar := p.isStar) == p
  {
    p.(isStar := !p.isStar)
  }

  function FlipIfId(id: string): Post -> Post
  {
    (t: Post) => if t.id == id then FlipStar(t) else t
  }

  /** The last record with the given id: the one `updatedTodo` ends up holding,
      since the map callback overwrites it at every match. */
  function LastWithId(s: seq<Post>, id: string): (r: Option<Post>)
    ensures r.None? <==> id !in Ids(s)
    ensures r.Some? ==> exists i :: 0 <= i < |s| && s[i] == r.value && r.value.id == id
                                    && forall j :: i < j < |s| ==> s[j].id != id
    decreases |s|
  {
    if |s| == 0 then None
    else if s[|s| - 1].id == id then Some(s[|s| - 1])
    else
      var r := LastWithId(s[..|s| - 1], id);
      assert s == s[..|s| - 1] + [s[|s| - 1]];
      r
  }

  /** PUT: flip `isStar` on every record whose id equals the requested one and
      answer 200 with the flipped record; with no such record the (re-mapped,
      hence equal) store stays and the answer is 404. An absent id never
      equals a stored id. */
  function Toggle(store: seq<Post>, id: Option<string>): (h: Handled)
    ensures |h.store| == |store|
    ensures id.None? || id.value !in Ids(store) <==> h.response == NotFound
    ensures h.response == NotFound ==> h.store == store
    ensures h.response != NotFound ==>
      && h.response.status == 200
      && h.response.payload.Updated?
      && h.response.payload.message == "Todo updated"
      && h.response.payload.todo.id == id.value
      && FlipStar(h.response.payload.todo) in store
      && h.response.payload.todo == FlipStar(LastWithId(store, id.value).value)
    ensures forall i :: 0 <= i < |store| ==>
      if id.Some? && store[i].id == id.value then h.store[i] == FlipStar(store[i])
      else h.store[i] == store[i]
  {
    match id
    case None => Handled(store, NotFound)
    case Some(x) =>
      var next := Map(store, FlipIfId(x));
      match LastWithId(store, x)
      case None =>
        assert next == store by {
          forall i | 0 <= i < |store| ensures next[i] == store[i] {
            assert store[i] in store;
          }
        }
        Handled(next, NotFound)
      case Some(t) =>
        Handled(next, Response(200, Updated("Todo updated", FlipStar(t))))
  }

  /** Toggling never changes which ids the store holds. */
  lemma ToggleKeepsIds(store: seq<Post>, id: Option<string>)
    ensures Ids(Toggle(store, id).store) == Ids(store)
    ensures UniqueIds(store) ==> UniqueIds(Toggle(store, id).store)
  {
    var s' := Toggle(store, id).store;
    forall x | x in Ids(store) ensures x in Ids(s') {
      var i :| 0 <= i < |store| && store[i].id == x;
      assert s'[i] in s';
    }
    forall x | x in Ids(s') ensures x in Ids(store) {
      var i :| 0 <= i < |s'| && s'[i].id == x;
      assert store[i] in store;
    }
  }

  /** Toggling the same id twice restores the store, and the second request
      succeeds exactly when the first did. */
  lemma ToggleInvolution(store: seq<Post>, id: Option<string>)
    ensures Toggle(Toggle(store, id).store, id).store == store
    ensures (Toggle(Toggle(store, id).store, id).response == NotFound)
        <==> (Toggle(store, id).response == NotFound)
  {
    var once := Toggle(store, id).store;
    var twice := Toggle(once, id).store;
    ToggleKeepsIds(store, id);
    forall i | 0 <= i < |store| ensures twice[i] == store[i] {
    }
  }

  /** With unique ids the response carries the flipped record at the requested id. */
  lemma ToggleReturnsRecord(store: seq<Post>, x: string)
    requires UniqueIds(store)
    requires x in Ids(store)
    ensures exists i :: 0 <= i < |store| && store[i].id == x
                        && Toggle(store, Some(x)).response.payload.todo == FlipStar(store[i])
                        && Toggle(store, Some(x)).store[i] == FlipStar(store[i])
  {
  }

  // ---------------------------------------------------------------------------
  // DELETE
  // ---------------------------------------------------------------------------

  /** DELETE: a falsy id is rejected with 400, an id no record carries with 404,
      both leaving the store alone; otherwise every record with that id is
      removed and the answer lists the records that remain. */
  function Delete(store: seq<Post>, id: Option<string>): (h: Handled)
    ensures !Truthy(id) ==> h == Handled(store, Response(400, Error("ID is required")))
    ensures Truthy(id) && id.value !in Ids(store) ==> h == Handled(store, NotFound)
    ensures Truthy(id) && id.value in Ids(store) ==>
      && h.store == RemoveById(store, id.value)
      && Ids(h.store) == Ids(store) - {id.value}
      && |h.store| < |store|
      && h.response == Response(200, Deleted("Todo deleted successfully", h.store))
  {
    if !Truthy(id) then
      Handled(store, Response(400, Error("ID is required")))
    else
      var rest := RemoveById(store, id.value);
      RemoveByIdLength(store, id.value);
      if |rest| == |store| then Handled(store, NotFound)
      else Handled(rest, Response(200, Deleted("Todo deleted successfully", rest)))
  }

  /** A DELETE that succeeded cannot succeed again: the repeat answers 404. */
  lemma DeleteTwice(store: seq<Post>, id: Option<string>)
    requires Delete(store, id).response.status == 200
    ensures Delete(Delete(store, id).store, id) == Handled(Delete(store, id).store, NotFound)
  {
  }

  /** With unique ids, a successful DELETE shrinks the store by exactly one
      record and keeps the ids unique. */
  lemma DeleteRemovesOne(store: seq<Post>, id: Option<string>)
    requires UniqueIds(store)
    ensures UniqueIds(Delete(store, id).store)
    ensures Delete(store, id).response.status == 200 ==>
      |Delete(store, id).store| == |store| - 1
  {
    if Truthy(id) {
      RemoveByIdKeepsUnique(store, id.value);
      if id.value in Ids(store) {
        RemoveByIdUnique(store, id.value);
      }
    }
  }

  // ---------------------------------------------------------------------------
  // The whole service
  // ---------------------------------------------------------------------------

  /** Route one request; `suffix` feeds the id generator of a POST. */
  function Handle(store: seq<Post>, req: Request, suffix: string): Handled
  {
    match req
    case GetAll => List(store)
    case PostTodo(b) => Create(store, b, suffix)
    case PutTodo(id) => Toggle(store, id)
    case DeleteTodo(id) => Delete(store, id)
  }

  /** Every failed request (status 400 or 404) leaves the store unchanged, and
      every request's status is one of the four the service uses. */
  lemma FailuresChangeNothing(store: seq<Post>, req: Request, suffix: string)
    ensures Handle(store, req, suffix).response.status in {200, 201, 400, 404}
    ensures Handle(store, req, suffix).response.status >= 400 ==>
      Handle(store, req, suffix).store == store
  {
  }

  /** The service keeps ids unique as long as every POST gets a fresh id. */
  lemma HandleKeepsUnique(store: seq<Post>, req: Request, suffix: string)
    requires UniqueIds(store)
    requires NewId(suffix) !in Ids(store)
    ensures UniqueIds(Handle(store, req, suffix).store)
  {
    match req
    case GetAll =>
    case PostTodo(b) => CreateKeepsUnique(store, b, suffix);
    case PutTodo(id) => ToggleKeepsIds(store, id);
    case DeleteTodo(id) => DeleteRemovesOne(store, id);
  }

  /** Create a post in an empty store, star it, delete it: the list shows one
      unstarred post, then the same post starred, then nothing. */
  lemma Lifecycle(body: CreateBody, suffix: string)
    requires Complete(body)
    ensures var s1 := Create([], body, suffix).store;
            var id := NewId(suffix);
            var s2 := Toggle(s1, Some(id)).store;
            var s3 := Delete(s2, Some(id)).store;
            && |s1| == 1 && s1[0].id == id && s1[0].todo == body.todo.value && !s1[0].isStar
            && Toggle(s1, Some(id)).response.status == 200
            && s2 == [s1[0].(isStar := true)]
            && Delete(s2, Some(id)).response.status == 200
            && s3 == []
  {
    var s1 := Create([], body, suffix).store;
    var id := NewId(suffix);
    var s2 := Toggle(s1, Some(id)).store;
    assert s1[0] in s1;
    assert s2[0] in s2;
    RemoveByIdLength(s2, id);
  }
}
